=== FILE: README.md ===
# Addition game classifier and snowball agents, modelled in Dafny

This project models the algorithmic core of three small programs and proves
properties of the model.

1. **The addition game** (`PracticeTest1/AndreyVagin.py`). Two players take
   turns adding a move between `MIN_MOVE` and `MAX_MOVE` to a shared position.
   Whoever reaches or passes `FINAL_POSITION` wins. The core has four parts:
   - The classifier (`find_fix_points`) computes the *fix points*: positions
     from which the player to move can force a win. It is a growing
     fixed-point search.
   - `find_lose_points` is the sorted complement of the fix points.
   - `find_nearest_lose_point` looks up the least lose point above a position.
   - The computer's smart and random moves and the player's advisor are built
     on the classification.
2. **The modified Grudger snowball agent** (`AndreyVaginCode.java`). It is a
   two-field state machine (`round`, `betrayed`).
3. **The reference agents and the match simulator**
   (`AndreyVaginTesting.java`). These are Cooperator, Cheater and Grudger, the
   60-minute match `simulateGame`, the payoff `Tuple`, and the tournament's
   self-play rule.

Files and modules:

| file | modules | models |
|---|---|---|
| `params.dfy` | `Params` | the four game constants, as a `Game` value |
| `fix_points.dfy` | `FixPointSearch` | `find_fix_points` |
| `lose_points.dfy` | `LoseIndex` | `find_lose_points`, `find_nearest_lose_point` |
| `strategy.dfy` | `Strategy` | module-level tables, `random_comp_move`, `smart_comp_move`, `advice_move` |
| `scenarios.dfy` | `Scenarios` | a game small enough to classify by hand |
| `snowball.dfy` | `Snowball` | what the `Player` interface supplies |
| `modified_grudger.dfy` | `ModifiedGrudger` | `AndreyVaginCode` |
| `reference_agents.dfy` | `Cooperator`, `Cheater`, `Grudger` | the reference agents |
| `match.dfy` | `Match` | `simulateGame`, `Tuple`, the tournament weighting |
| `wrappers.dfy` | `Wrappers` | `Option` |

## Modelling decisions

- **Parameters instead of constants.** The game constants become a `Game`
  value. `Params.Configured` holds the program's own values: positions from
  1, target 2023, moves 1 to 21.
- **The only demand on a game is `maxMove >= 1`.** The classifier starts from
  the seed window `[final - max, final + max)`. If that window is empty, the
  representative lookup (`list(w[-1])[0]`) fails. The source checks nothing
  else.
  - `ComputeFixPoints` requires `maxMove >= 1`.
  - `BuildClassifier` returns `None` when `maxMove < 1`.
  - When `minMove <= 0`, 0 is an allowed move, so no position is a trap and
    nothing is added beyond the seed. The theorems hold in that case too.
- **The round representative is the set minimum.** The source takes the
  first element of a Python set, an order the language does not fix. The
  model uses the least member instead.
- **Moves are phrased by target position.** The source loops over moves `i`
  and `j`. The model quantifies over the target positions those moves reach.
  A *trap* of a set `w` is a position outside `w` from which every move lands
  in `w`. A round adds a position `p` when `p` is not yet in `w` and has a
  move to a trap.
- **`Valid` describes what the strategies rely on.** A classifier is valid
  when three things hold:
  - its fix set has the shape the search produces (`WellFormed`);
  - every fix point is justified by a trap (`Justified`);
  - its index is exactly `LosePoints` of that set.

  `BuildClassifier` proves that its result is valid, and the strategy
  theorems hold for every valid classifier.
- **The random choice is a parameter.** `SmartMove` takes a `draw` in
  `[minMove, maxMove]`, standing for the value `random.randint` returns.
- **Advice is returned, not printed.** It has three possible outcomes. The
  third, `NoTarget`, is the case where the source would subtract from `None`.
  That case is reachable only below `minPosition`.
- **The per-minute limit is a parameter.** `maxSnowballsPerMinute` comes from
  the `Player` interface, which is not part of this model. It becomes a
  parameter `cap: int -> int`.
- **Agents are immutable values.**
  - Each opponent-field call returns the next state and the shot.
  - A hot-field call returns only the shot. It changes no state because its
    result type has no state in it.
- **Java's `%` needs no special treatment.** The agents only test
  `round % 4 == 0`. Divisibility gives the same answer under Java's
  truncating `%` and Dafny's Euclidean `%`.

### Which positions are fix points

A position is a fix point when the player *to move* there can force a win.
So in the game from 0 to 10 with moves 1 to 3, positions 7, 8 and 9 (one move
from 10) are fix points, and the lose points are the positions below 10 whose
distance to 10 is a multiple of 4:

- `Scenarios.SmallGameFixPoints` proves that the search on that game stops
  after two productive rounds.
- `Scenarios.SmallGameLosePoints` proves that its lose points are exactly 2
  and 6.
- `Scenarios.SmallGameMoves` proves that the smart move from 5 is 1, and that
  the advisor reports no winning strategy at 6 and proposes 2 at 8.

## Model

| member | source | states |
|---|---|---|
| FixPointSearch.ComputeFixPoints | PracticeTest1/AndreyVagin.py:43-80 | The search always stops. Its history starts with the empty set and the seed window `[final-max, final+max)`, and each later entry strictly grows the previous one by what its round adds. The result is the last entry: well formed, justified, and with no candidate in its scanning window passing the addition test. |
| FixPointSearch.Round | PracticeTest1/AndreyVagin.py:68-73 | A point is added exactly when it lies in the round's window and passes the addition test: it is not yet in the set and has a move to a trap. Every added point is new and lies in `[minPosition, finalPosition)`. |
| FixPointSearch.Additions | PracticeTest1/AndreyVagin.py:68-73 | For any window, a position is collected exactly when it lies in the window, is not yet a fix point, and has a move onto a position outside the set from which every move lands back in the set. |
| FixPointSearch.ScanWindow | PracticeTest1/AndreyVagin.py:62-66 | The window holds exactly the positions within 2·maxMove of the representative (upper end exclusive) that also lie in `[minPosition, finalPosition)`. |
| FixPointSearch.Representative | PracticeTest1/AndreyVagin.py:60 | The representative is a member of the current set and no member is smaller. The model fixes it as the minimum. |
| FixPointSearch.TrapSurvivesRound | PracticeTest1/AndreyVagin.py:70-73 | A trap of the current set is never added by a round and stays a trap of the grown set. So the move a fix point was added for remains a move to a non-fix point. |
| FixPointSearch.RoundPreservesJustified | PracticeTest1/AndreyVagin.py:70-78 | The union `new_w \| w[-1]` stays well formed. Every fix point outside the seed window keeps a move to a trap. |
| FixPointSearch.RoundShrinksUnclassified | PracticeTest1/AndreyVagin.py:75-78 | A round that adds something shrinks the set of unclassified positions in `[minPosition, finalPosition)`. This is the loop's termination measure. |
| FixPointSearch.SeedStartsHistory | PracticeTest1/AndreyVagin.py:51-53 | The history `[{}, seed]` is a valid start, and the seed window is well formed and justified. |
| FixPointSearch.HistoryStrictlyGrows | PracticeTest1/AndreyVagin.py:51-78 | Each entry of the history `w` is a proper subset of the next: the seed window adds to the empty set, and a round is appended only when `new_w` is non-empty and disjoint from `w[-1]`. |
| FixPointSearch.JustifiedAlongHistory | PracticeTest1/AndreyVagin.py:51-78 | Every entry of the history from the seed window on is justified: each fix point outside the seed window has a move onto a trap of that entry. |
| LoseIndex.LosePoints | PracticeTest1/AndreyVagin.py:86-97 | The result is strictly ascending. It holds exactly the positions of `[minPosition, final+max)` that are not fix points. |
| LoseIndex.NearestLosePoint | PracticeTest1/AndreyVagin.py:103-109 | The result is `None` exactly when every listed point is at most the position. Otherwise it is a listed point above the position, and on an ascending list it is the least such point. |
| Strategy.BuildClassifier | PracticeTest1/AndreyVagin.py:83-100 | It fails exactly when the seed window is empty. Otherwise its fix set is the last entry of a history of the search itself (as `fix_points = find_fix_points(...)`), on which the last round adds nothing. The classifier is valid for the game. |
| Strategy.ConfiguredClassifier | PracticeTest1/AndreyVagin.py:9-15 | Classifying the configured game (moves 1 to 21, target 2023) always succeeds. Its fix set is the last entry of the search's own history, whose last round adds nothing, and there every smart move from a position short of the target lies in `[MIN_MOVE, MAX_MOVE]`, as the `smart_comp_move` doc-comment promises. |
| Strategy.LosePointsBelowSeed | PracticeTest1/AndreyVagin.py:53-97 | In a valid classifier, lose points are never fix points and lie in `[minPosition, final - maxMove)`. |
| Strategy.FixPointForcesWin | PracticeTest1/AndreyVagin.py:70-80 | From every fix point below `final - maxMove` some move reaches a lose point from which every move lands on a fix point. |
| Strategy.NearestTargetInReach | PracticeTest1/AndreyVagin.py:220-222 | From such a fix point the nearest-lose-point lookup never returns `None`, and the lose point it returns is at most `maxMove` above the position. |
| Strategy.RandomMove | PracticeTest1/AndreyVagin.py:192-203 | The random move lies in `[minMove, maxMove]`. |
| Strategy.WinningMove | PracticeTest1/AndreyVagin.py:220-222 | From a fix point below `final - maxMove`, the move is between 1 and `maxMove` and lands on the least lose point above the position. |
| Strategy.SmartMove | PracticeTest1/AndreyVagin.py:206-227 | When the target is within `maxMove`, position + move equals the target. From a fix point otherwise, it is the WinningMove. The fallback move is an allowed move. When `minMove` is 1, every move from below the target is in `[minMove, maxMove]`. |
| Strategy.SmartMoveFromFixPoint | PracticeTest1/AndreyVagin.py:217-222 | From a fix point below `final - maxMove`, the smart move is between 1 and `maxMove` and lands on the least lose point above the position. |
| Strategy.AdviceMove | PracticeTest1/AndreyVagin.py:230-250 | The result is "no winning strategy" exactly on lose points. From `minPosition` upward the lookup never fails. Any advised move from `minPosition` up to the target is between 1 and `maxMove` and lands on the target or on a lose point. |
| Strategy.AdviceAgreesWithSmartMove | PracticeTest1/AndreyVagin.py:217-222 | Off the lose points, from `minPosition` up, the advisor proposes exactly the move the smart strategy makes. |
| Scenarios.FirstRoundOf | PracticeTest1/AndreyVagin.py:68-73 | With moves 1 to 3 and a set holding exactly 7 to 12 of `[1, 13)`, scanning `[1, 10)` adds exactly 3, 4 and 5. |
| Scenarios.SecondRoundOf | PracticeTest1/AndreyVagin.py:68-73 | With moves 1 to 3 and a set holding exactly 3, 4, 5 and 7 to 12 of `[0, 13)`, scanning `[0, 9)` adds exactly 0 and 1. |
| Scenarios.ThirdRoundOf | PracticeTest1/AndreyVagin.py:68-76 | With moves 1 to 3 and a set holding all of `[0, 13)` but 2 and 6, scanning `[0, 6)` adds nothing, so the loop breaks. |
| Scenarios.SmallGameFixPoints | PracticeTest1/AndreyVagin.py:57-80 | For positions from 0, target 10 and moves 1 to 3, every history the search can run through has four entries and ends in `{0,1,3,4,5,7,...,12}`. |
| Scenarios.SmallGameLosePoints | PracticeTest1/AndreyVagin.py:94-97 | The lose points of that game are exactly 2 and 6. |
| Scenarios.ClassifySmallGame | PracticeTest1/AndreyVagin.py:83-100 | Classifying the small game yields the fix set `{0,1,3,4,5,7..12}` and lose points exactly 2 and 6. There the smart move from 5 is 1 for every draw, and the advisor reports no strategy at 6, proposes 2 at 8 and 1 at 9. |
| Scenarios.SmallGameMoves | PracticeTest1/AndreyVagin.py:217-248 | In that game the smart move from 5 is 1. The advisor reports no strategy at 6, proposes 2 at 8 and proposes 1 at 9. |
| Snowball.Allowance | PracticeTest2/gametheory/snowball/students2022/AndreyVaginCode.java:28 | `Math.min(snowballNumber, maxSnowballsPerMinute(minutes))`: the result is at most each argument and equal to one of them. |
| ModifiedGrudger.Reset | PracticeTest2/gametheory/snowball/students2022/AndreyVaginCode.java:14-17 | Whatever the prior state, reset gives round 0, not betrayed. |
| ModifiedGrudger.ShootToOpponentField | PracticeTest2/gametheory/snowball/students2022/AndreyVaginCode.java:20-32 | The call counts exactly one round. Betrayal is set by a nonzero opponent shot or by round 60, and is never cleared. A nonzero shot needs betrayal and a round divisible by 4, and then equals the allowance. The shot is at most the snowballs held and not negative when the pile and the limit are not. |
| ModifiedGrudger.ShootToHotField | PracticeTest2/gametheory/snowball/students2022/AndreyVaginCode.java:35-48 | The shot is nonzero only when not betrayed and the round is divisible by 4. At round 56, when not betrayed, it is `min(7, allowance)`: at most each, and equal to one of them. Otherwise, when it fires, it is the full allowance. |
| ModifiedGrudger.OneTargetPerMinute | PracticeTest2/gametheory/snowball/students2022/AndreyVaginCode.java:23-41 | In one minute (opponent call, then hot call) at most one of the two shots is nonzero. |
| ModifiedGrudger.LastMinuteAttacks | PracticeTest2/gametheory/snowball/students2022/AndreyVaginCode.java:4-7 | In round 60 the agent is betrayed, shoots the full allowance at the opponent, and throws nothing into the hot field. |
| ModifiedGrudger.AfterMinutes | PracticeTest2/gametheory/snowball/students2022/AndreyVaginCode.java:21-25 | Over any run of minutes the round grows by the number of minutes. The agent ends betrayed exactly when it started betrayed, met a nonzero opponent shot in the run, or passed round 60 during the run. |
| Cooperator.Reset | PracticeTest2/gametheory/snowball/students2022/AndreyVaginTesting.java:129-132 | Reset gives round 0. |
| Cooperator.ShootToOpponentField | PracticeTest2/gametheory/snowball/students2022/AndreyVaginTesting.java:135-140 | The Cooperator never shoots the opponent, and the call counts one round. |
| Cooperator.ShootToHotField | PracticeTest2/gametheory/snowball/students2022/AndreyVaginTesting.java:143-150 | The hot shot is nonzero only on rounds divisible by 4, and on those rounds it is the full allowance. |
| Cheater.Reset | PracticeTest2/gametheory/snowball/students2022/AndreyVaginTesting.java:170-173 | Reset gives round 0. |
| Cheater.ShootToOpponentField | PracticeTest2/gametheory/snowball/students2022/AndreyVaginTesting.java:176-184 | The call counts one round. The shot is nonzero only on rounds divisible by 4, and on those rounds it is the full allowance. |
| Cheater.ShootToHotField | PracticeTest2/gametheory/snowball/students2022/AndreyVaginTesting.java:187-190 | The Cheater never shoots the hot field. |
| Grudger.Reset | PracticeTest2/gametheory/snowball/students2022/AndreyVaginTesting.java:211-215 | Reset gives round 0, not betrayed. |
| Grudger.ShootToOpponentField | PracticeTest2/gametheory/snowball/students2022/AndreyVaginTesting.java:218-230 | The call counts one round. Betrayal is sticky and set exactly by a nonzero opponent shot. The Grudger shoots the opponent only when betrayed on a round divisible by 4, and then shoots the full allowance. |
| Grudger.ShootToHotField | PracticeTest2/gametheory/snowball/students2022/AndreyVaginTesting.java:233-242 | The hot shot is nonzero only when not betrayed on a round divisible by 4, and then it is the full allowance. |
| Grudger.OneTargetPerMinute | PracticeTest2/gametheory/snowball/students2022/AndreyVaginTesting.java:218-242 | In one minute at most one of the Grudger's two shots is nonzero. |
| Match.Reset | PracticeTest2/gametheory/snowball/students2022/AndreyVaginTesting.java:19-20 | Resetting any agent keeps its kind and gives round 0, not betrayed. |
| Match.ShootToOpponentField | PracticeTest2/gametheory/snowball/students2022/AndreyVaginTesting.java:32-33 | For every agent kind the call keeps the kind, counts one round and never clears betrayal. A nonzero shot falls on a round divisible by 4 and is bounded by the snowballs held. |
| Match.ShootToHotField | PracticeTest2/gametheory/snowball/students2022/AndreyVaginTesting.java:35-36 | For every agent kind a nonzero hot shot comes only from a non-betrayed agent on a round divisible by 4. |
| Match.OneTargetPerMinute | PracticeTest2/gametheory/snowball/students2022/AndreyVaginTesting.java:32-36 | Every agent kind shoots at most one nonzero shot per minute. |
| Match.Start | PracticeTest2/gametheory/snowball/students2022/AndreyVaginTesting.java:19-29 | Both players are reset, hold 99 snowballs each and have counted 0 minutes. No attack is pending, so minute 1 reports 0 as the opponent's last shot. |
| Match.Minute | PracticeTest2/gametheory/snowball/students2022/AndreyVaginTesting.java:32-53 | Each player is handed the other's attack from the previous minute. Snow changes by `1 + incoming - hot - own`, so the total grows by `2 - hotFirst - hotSecond`. A player's minute counter becomes 1 after a minute in which it shot, and otherwise grows by 1. |
| Match.Play | PracticeTest2/gametheory/snowball/students2022/AndreyVaginTesting.java:31-53 | After n ≥ 1 minutes from a non-negative count, each minute counter lies between 1 and its start value plus n. The counter is reset by a shot and then incremented, so it counts the minutes since its player last shot. |
| Match.PlayConservesSnow | PracticeTest2/gametheory/snowball/students2022/AndreyVaginTesting.java:46-47 | After n minutes the snow total is the starting total plus 2n, less everything thrown into the hot field. |
| Match.MinuteKeepsSnow | PracticeTest2/gametheory/snowball/students2022/AndreyVaginTesting.java:32-47 | With a non-negative limit, both players hold at least one snowball after a minute and the hot shots are non-negative. |
| Match.PlayKeepsSnow | PracticeTest2/gametheory/snowball/students2022/AndreyVaginTesting.java:31-62 | With a non-negative limit the snow never goes negative, both players hold at least one snowball after every minute, and the hot total is non-negative. |
| Match.SnowStaysBounded | PracticeTest2/gametheory/snowball/students2022/AndreyVaginTesting.java:22-62 | With a non-negative limit, after any number of minutes up to 60 each player's snow lies between 0 and `2·99 + 2·60 = 318`. |
| Match.RoundsCountMinutes | PracticeTest2/gametheory/snowball/students2022/AndreyVaginTesting.java:19-33 | After n minutes of a match both agents keep their kind and are at round n. |
| Match.ModifiedGrudgerTurnsInLastMinute | PracticeTest2/gametheory/snowball/students2022/AndreyVaginCode.java:23-41 | In minute 60 of a match, the modified Grudger as first player shoots its full allowance at the opponent and nothing into the hot field. |
| Match.PlayMatch | PracticeTest2/gametheory/snowball/students2022/AndreyVaginTesting.java:19-65 | For any number of minutes, the payoffs are the snow the two players hold at the end of the match from the reset start. Their sum is 2·99 plus 2 per minute, less the hot-field total. With a non-negative limit and at least one minute, each payoff is at least 1 and the sum is at most that total. |
| Match.SimulateGame | PracticeTest2/gametheory/snowball/students2022/AndreyVaginTesting.java:18-66 | The payoffs are the snow of the two players after exactly 60 minutes from the reset start. Their sum is 2·99 + 2·60 less the hot-field total. With a non-negative limit, each payoff is at least 1 and the sum at most 318, well inside Java's `int`. |
| Match.Tuple.Equals | PracticeTest2/gametheory/snowball/students2022/AndreyVaginTesting.java:264-269 | True exactly when both payoffs match, that is, when the two tuples are equal. |
| Match.Score | PracticeTest2/gametheory/snowball/students2022/AndreyVaginTesting.java:90-102 | A kind with no copies never enters the inner loop and scores 0. Match.ScoreMeetsEveryOtherAgentOnce gives the score of a kind with copies. |
| Match.OpponentCopies | PracticeTest2/gametheory/snowball/students2022/AndreyVaginTesting.java:95-98 | An agent meets every copy of another kind. Against its own kind it meets one fewer copy, unless there are none. |
| Match.ScoreMeetsEveryOtherAgentOnce | PracticeTest2/gametheory/snowball/students2022/AndreyVaginTesting.java:90-102 | The tournament score of a kind with at least one copy is its payoff against every copy of every kind, less one game against itself. |

## Left out

- Terminal I/O and input parsing: `clear`, `choose_init_postion`, `choose_playing_mode`, `read_user_move`, and the `print` in `advice_move`. Advice is returned as a value instead.
- `get_mode`: a fixed mapping from a letter to a mode name, with no logic to prove.
- `get_play_index`, `play` and `game`: file, JSON and logging plumbing, plus the interactive loops that only sequence the modelled calls.
- `random.randint` and `random.randrange`: the random move is a parameter constrained to `[minMove, maxMove]`, not a generator.
- CPython's set iteration order: replaced by the set minimum as each round's representative.
- The spectrum of games with `minMove > 1`: Strategy.SmartMove states the `[MIN_MOVE, MAX_MOVE]` range of the doc-comment only for `minMove = 1`, the program's own value. With a larger `minMove`, an immediate win or the nearest lose point can be closer than `minMove`.
- FixPointSearch.ComputeFixPoints: does not promise that every move from a lose point lands on a fix point. The windowed search is not proved to classify every game exactly. FixPointForcesWin proves the forced-win direction only.
- The Java `main` printing and the hard-coded agent counts. The tournament weighting and the self-play rule are modelled over any counts and any payoff row.
- The `Player` interface: `maxSnowballsPerMinute` is the parameter `cap`. `getEmail` returns a constant string (or `null`) and carries no behaviour.
- Java's 32-bit `int` arithmetic: not modelled. Match.SnowStaysBounded shows that with a non-negative limit every snow count of a 60-minute match stays between 0 and 318, far from overflow.
- ModifiedGrudger.AfterMinutes: feeds the same pile and minute count to every call, because those only affect shot sizes, never the state.

=== FILE: fix_points.dfy ===
/**
 The position classifier of the addition game: the growing fixed-point search
 for "fix points" (positions from which the player to move can force a win).

 Round by round the search keeps a set w of fix points. It starts from the seed
 window, then re-scans a window around one representative member of w and adds
 every position p that has a move to a trap: a position outside w from which
 every move lands back in w. It stops at the first round that adds nothing.

 The program takes the representative as "the first element of the set", an
 order the language does not fix; this model takes the least member.
 */
module FixPointSearch {
  import opened Params

  /** q is not (yet) a fix point, and every move from q lands on a fix point. */
  predicate Trap(g: Game, w: set<int>, q: int) {
    q !in w && forall t | q + g.minMove <= t <= q + g.maxMove :: t in w
  }

  /** The addition test of one round: p is new and has a move to a trap. */
  predicate Qualifies(g: Game, w: set<int>, p: int) {
    p !in w && exists t | p + g.minMove <= t <= p + g.maxMove :: Trap(g, w, t)
  }

  /** The shape of every set the search holds: the seed window plus positions in [minPosition, finalPosition). */
  ghost predicate WellFormed(g: Game, w: set<int>) {
    && g.maxMove >= 1
    && Seed(g) <= w
    && forall p | p in w :: InSeed(g, p) || g.minPosition <= p < g.finalPosition
  }

  /**
   Every fix point outside the seed window lies in [minPosition, finalPosition)
   and has a move to a trap of w.
   */
  ghost predicate Justified(g: Game, w: set<int>) {
    forall p | p in w ::
      || InSeed(g, p)
      || (g.minPosition <= p < g.finalPosition && exists t :: Reaches(g, p, t) && Trap(g, w, t))
  }

  /** The least member of s that is at least lo, found by scanning upward from lo. */
  function LeastFrom(s: set<int>, lo: int, hi: int): (m: int)
    requires exists x :: x in s && lo <= x < hi
    ensures m in s && lo <= m < hi
    ensures forall y :: y in s && lo <= y ==> m <= y
    decreases hi - lo
  {
    if lo in s then lo else LeastFrom(s, lo + 1, hi)
  }

  /** No member of a well-formed set lies below this bound. */
  function Floor(g: Game): int {
    if g.minPosition < g.finalPosition - g.maxMove then g.minPosition else g.finalPosition - g.maxMove
  }

  /** The round's representative: the least current fix point. */
  function Representative(g: Game, w: set<int>): (r: int)
    requires WellFormed(g, w)
    ensures r in w
    ensures forall y :: y in w ==> r <= y
  {
    assert g.finalPosition - g.maxMove in w;
    LeastFrom(w, Floor(g), g.finalPosition + g.maxMove)
  }

  /** A half-open scanning window [lo, hi). */
  datatype Window = Window(lo: int, hi: int)

  predicate InWindow(win: Window, p: int) {
    win.lo <= p < win.hi
  }

  /**
   The window of one round: 2 * maxMove on either side of the representative,
   clamped to [minPosition, finalPosition].
   */
  function ScanWindow(g: Game, w: set<int>): (win: Window)
    requires WellFormed(g, w)
    ensures g.minPosition <= win.lo && win.hi <= g.finalPosition
    ensures forall p :: InWindow(win, p) <==>
      && g.minPosition <= p < g.finalPosition
      && Representative(g, w) - 2 * g.maxMove <= p < Representative(g, w) + 2 * g.maxMove
  {
    var rep := Representative(g, w);
    var left := rep - 2 * g.maxMove;
    var right := rep + 2 * g.maxMove;
    Window(if left < g.minPosition then g.minPosition else left,
           if right > g.finalPosition then g.finalPosition else right)
  }

  /** The positions of win that qualify for addition to w. */
  function Additions(g: Game, w: set<int>, win: Window): (added: set<int>)
    ensures forall p :: p in added <==> InWindow(win, p) && Qualifies(g, w, p)
  {
    set p | win.lo <= p < win.hi && Qualifies(g, w, p)
  }

  /** The positions one round adds to w. */
  function Round(g: Game, w: set<int>): (added: set<int>)
    requires WellFormed(g, w)
    ensures forall p :: p in added <==> InWindow(ScanWindow(g, w), p) && Qualifies(g, w, p)
    ensures forall p :: p in added ==> p !in w && g.minPosition <= p < g.finalPosition
  {
    Additions(g, w, ScanWindow(g, w))
  }

  /**
   A trap survives a round: it is not added, and it is still a trap of the
   grown set. So the move a fix point was added for stays a winning move.
   */
  lemma TrapSurvivesRound(g: Game, w: set<int>, q: int)
    requires WellFormed(g, w)
    requires Trap(g, w, q)
    ensures q !in Round(g, w)
    ensures Trap(g, w + Round(g, w), q)
  {
  }

  /** One round keeps the set well formed and every fix point justified. */
  lemma RoundPreservesJustified(g: Game, w: set<int>)
    requires WellFormed(g, w)
    requires Justified(g, w)
    ensures WellFormed(g, w + Round(g, w))
    ensures Justified(g, w + Round(g, w))
  {
    var added := Round(g, w);
    var w' := w + added;
    forall p | p in w' && !InSeed(g, p)
      ensures g.minPosition <= p < g.finalPosition
      ensures exists t :: Reaches(g, p, t) && Trap(g, w', t)
    {
      var t :| Reaches(g, p, t) && Trap(g, w, t);
      TrapSurvivesRound(g, w, t);
      assert Reaches(g, p, t) && Trap(g, w', t);
    }
  }

  /**
   The round history of the search: the empty set, the seed window, then one
   set per round, each the previous one plus what its round adds; the last set
   is well formed.
   */
  ghost predicate History(g: Game, rounds: seq<set<int>>) {
    && |rounds| >= 2 && rounds[0] == {} && rounds[1] == Seed(g)
    && WellFormed(g, rounds[|rounds| - 1])
    && (forall k | 1 <= k < |rounds| - 1 :: Step(g, rounds[k], rounds[k + 1]))
  }

  /** b is what one productive round makes of a. */
  ghost predicate Step(g: Game, a: set<int>, b: set<int>) {
    WellFormed(g, a) && Round(g, a) != {} && b == a + Round(g, a)
  }

  /** Every round of the history holds strictly more fix points than the one before. */
  lemma HistoryStrictlyGrows(g: Game, rounds: seq<set<int>>)
    requires History(g, rounds)
    ensures forall k | 0 <= k < |rounds| - 1 :: rounds[k] < rounds[k + 1]
  {
    forall k | 0 <= k < |rounds| - 1
      ensures rounds[k] < rounds[k + 1]
    {
      if k == 0 {
        assert g.finalPosition - g.maxMove in rounds[1];
      } else {
        assert Step(g, rounds[k], rounds[k + 1]);
        var x :| x in Round(g, rounds[k]);
        assert x !in rounds[k];
      }
    }
  }

  lemma HistoryGrows(g: Game, rounds: seq<set<int>>)
    requires History(g, rounds)
    requires Round(g, rounds[|rounds| - 1]) != {}
    requires WellFormed(g, rounds[|rounds| - 1] + Round(g, rounds[|rounds| - 1]))
    ensures History(g, rounds + [rounds[|rounds| - 1] + Round(g, rounds[|rounds| - 1])])
  {
    var last := rounds[|rounds| - 1];
    var rounds' := rounds + [last + Round(g, last)];
    forall k | 1 <= k < |rounds'| - 1
      ensures Step(g, rounds'[k], rounds'[k + 1])
    {
      if k < |rounds| - 1 {
        assert rounds'[k] == rounds[k] && rounds'[k + 1] == rounds[k + 1];
      } else {
        assert rounds'[k] == last && rounds'[k + 1] == last + Round(g, last);
      }
    }
  }

  /** The search starts well formed: the seed window alone. */
  lemma SeedStartsHistory(g: Game)
    requires g.maxMove >= 1
    ensures WellFormed(g, Seed(g)) && Justified(g, Seed(g))
    ensures History(g, [{}, Seed(g)])
  {
    assert g.finalPosition - g.maxMove in Seed(g);
  }

  /** A productive round shrinks the unclassified part of [minPosition, finalPosition). */
  lemma RoundShrinksUnclassified(g: Game, w: set<int>)
    requires WellFormed(g, w)
    requires Round(g, w) != {}
    ensures Interval(g.minPosition, g.finalPosition) - (w + Round(g, w))
          < Interval(g.minPosition, g.finalPosition) - w
  {
    var x :| x in Round(g, w);
    assert x in Interval(g.minPosition, g.finalPosition) - w;
  }

  /** Every set in the history is justified: each round keeps the witnesses of the last. */
  lemma {:induction false} JustifiedAlongHistory(g: Game, rounds: seq<set<int>>, k: int)
    requires History(g, rounds)
    requires 1 <= k < |rounds|
    ensures Justified(g, rounds[k])
    decreases k
  {
    if k == 1 {
      SeedStartsHistory(g);
    } else {
      JustifiedAlongHistory(g, rounds, k - 1);
      assert Step(g, rounds[k - 1], rounds[k]);
      RoundPreservesJustified(g, rounds[k - 1]);
    }
  }

  /**
   The search itself. `rounds` is the history of sets the search holds: the
   empty set, the seed window, then one entry per round that added something.
   */
  method ComputeFixPoints(g: Game) returns (fix: set<int>, rounds: seq<set<int>>)
    requires g.maxMove >= 1
    ensures |rounds| >= 2 && fix == rounds[|rounds| - 1]
    ensures History(g, rounds)
    ensures WellFormed(g, fix) && Justified(g, fix)
    ensures Round(g, fix) == {}
    ensures forall p :: InWindow(ScanWindow(g, fix), p) ==> !Qualifies(g, fix, p)
  {
    var w := Seed(g);
    SeedStartsHistory(g);
    rounds := [{}, w];
    var added := Round(g, w);
    while added != {}
      invariant |rounds| >= 2 && rounds[|rounds| - 1] == w
      invariant History(g, rounds)
      invariant WellFormed(g, w)
      invariant added == Round(g, w)
      decreases Interval(g.minPosition, g.finalPosition) - w
    {
      HistoryGrows(g, rounds);
      RoundShrinksUnclassified(g, w);
      w := w + added;
      rounds := rounds + [w];
      added := Round(g, w);
    }
    fix := w;
    JustifiedAlongHistory(g, rounds, |rounds| - 1);
  }
}

=== FILE: lose_points.dfy ===
/**
 The lose-point index: every position of [minPosition, final + maxMove) that
 is not a fix point, in ascending order, and the "least lose point above a
 position" lookup the strategies use.
 */
module LoseIndex {
  import opened Params
  import opened Wrappers

  ghost predicate StrictlyIncreasing(s: seq<int>) {
    forall i, j | 0 <= i < j < |s| :: s[i] < s[j]
  }

  /** The lose points from lo upward, ascending. */
  function LosePointsFrom(g: Game, fix: set<int>, lo: int): (r: seq<int>)
    ensures StrictlyIncreasing(r)
    ensures forall x :: x in r <==> lo <= x < g.finalPosition + g.maxMove && x !in fix
    decreases g.finalPosition + g.maxMove - lo
  {
    if lo >= g.finalPosition + g.maxMove then []
    else if lo in fix then LosePointsFrom(g, fix, lo + 1)
    else
      var rest := LosePointsFrom(g, fix, lo + 1);
      assert forall k | 0 <= k < |rest| :: lo < rest[k] by {
        forall k | 0 <= k < |rest| ensures lo < rest[k] { assert rest[k] in rest; }
      }
      [lo] + rest
  }

  /** The sorted complement of the fix points over the classifier's domain. */
  function LosePoints(g: Game, fix: set<int>): (r: seq<int>)
    ensures StrictlyIncreasing(r)
    ensures forall x :: x in r <==> InDomain(g, x) && x !in fix
  {
    LosePointsFrom(g, fix, g.minPosition)
  }

  /**
   The first listed lose point strictly above `position`, or None when every
   one is at most `position`. On an ascending list it is the least one above.
   */
  function NearestLosePoint(lose: seq<int>, position: int): (r: Option<int>)
    ensures r.None? <==> forall k | 0 <= k < |lose| :: lose[k] <= position
    ensures r.Some? ==> r.value in lose && r.value > position
    ensures r.Some? && StrictlyIncreasing(lose) ==>
      forall x | x in lose && x > position :: r.value <= x
  {
    if |lose| == 0 then None
    else if lose[0] > position then Some(lose[0])
    else
      assert StrictlyIncreasing(lose) ==> StrictlyIncreasing(lose[1..]);
      assert forall x | x in lose && x > position :: x in lose[1..] by {
        forall x | x in lose && x > position ensures x in lose[1..] {
          var k :| 0 <= k < |lose| && lose[k] == x;
          assert k != 0;
          assert lose[1..][k - 1] == x;
        }
      }
      NearestLosePoint(lose[1..], position)
  }
}

=== FILE: match.dfy ===
/**
 The snowball match between two agents and the all-with-all tournament that
 weighs match results by how many copies of each agent take part.

 Both players start with 99 snowballs. Every minute each one gains a
 snowball, loses what it throws, and gains what the opponent throws at it;
 snowballs thrown into the hot field are gone. After 60 minutes the snowballs
 each holds are its payoff.
 */
module Match {
  import opened Snowball
  import Cooperator
  import Cheater
  import Grudger
  import ModifiedGrudger

  /** Any of the four agents of the tournament, with its state. */
  datatype Player =
    | CooperatorAgent(cooperator: Cooperator.State)
    | CheaterAgent(cheater: Cheater.State)
    | GrudgerAgent(grudger: Grudger.State)
    | ModifiedGrudgerAgent(modified: ModifiedGrudger.State)
  {
    /** The minutes the agent has counted since its last reset. */
    function Round(): int {
      match this
      case CooperatorAgent(s) => s.round
      case CheaterAgent(s) => s.round
      case GrudgerAgent(s) => s.round
      case ModifiedGrudgerAgent(s) => s.round
    }

    /** Whether the agent has turned hostile; the two unconditional agents never do. */
    predicate Betrayed() {
      match this
      case CooperatorAgent(_) => false
      case CheaterAgent(_) => false
      case GrudgerAgent(s) => s.betrayed
      case ModifiedGrudgerAgent(s) => s.betrayed
    }

    predicate SameKind(other: Player) {
      && (CooperatorAgent? <==> other.CooperatorAgent?)
      && (CheaterAgent? <==> other.CheaterAgent?)
      && (GrudgerAgent? <==> other.GrudgerAgent?)
      && (ModifiedGrudgerAgent? <==> other.ModifiedGrudgerAgent?)
    }
  }

  function Reset(p: Player): (r: Player)
    ensures r.SameKind(p) && r.Round() == 0 && !r.Betrayed()
  {
    match p
    case CooperatorAgent(s) => CooperatorAgent(Cooperator.Reset(s))
    case CheaterAgent(s) => CheaterAgent(Cheater.Reset(s))
    case GrudgerAgent(s) => GrudgerAgent(Grudger.Reset(s))
    case ModifiedGrudgerAgent(s) => ModifiedGrudgerAgent(ModifiedGrudger.Reset(s))
  }

  function ShootToOpponentField(p: Player, opponentLastShot: int, snow: int, minutes: int, cap: Cap): (r: Shot<Player>)
    ensures r.next.SameKind(p) && r.next.Round() == p.Round() + 1
    ensures p.Betrayed() ==> r.next.Betrayed()
    ensures r.amount != 0 ==> FiringRound(r.next.Round())
    ensures snow >= 0 ==> r.amount <= snow
    ensures snow >= 0 && cap(minutes) >= 0 ==> r.amount >= 0
  {
    match p
    case CooperatorAgent(s) =>
      var r := Cooperator.ShootToOpponentField(s, opponentLastShot, snow, minutes, cap);
      Shot(CooperatorAgent(r.next), r.amount)
    case CheaterAgent(s) =>
      var r := Cheater.ShootToOpponentField(s, opponentLastShot, snow, minutes, cap);
      Shot(CheaterAgent(r.next), r.amount)
    case GrudgerAgent(s) =>
      var r := Grudger.ShootToOpponentField(s, opponentLastShot, snow, minutes, cap);
      Shot(GrudgerAgent(r.next), r.amount)
    case ModifiedGrudgerAgent(s) =>
      var r := ModifiedGrudger.ShootToOpponentField(s, opponentLastShot, snow, minutes, cap);
      Shot(ModifiedGrudgerAgent(r.next), r.amount)
  }

  function ShootToHotField(p: Player, opponentLastShot: int, snow: int, minutes: int, cap: Cap): (amount: int)
    ensures amount != 0 ==> !p.Betrayed() && FiringRound(p.Round())
    ensures snow >= 0 ==> amount <= snow
    ensures snow >= 0 && cap(minutes) >= 0 ==> amount >= 0
  {
    match p
    case CooperatorAgent(s) => Cooperator.ShootToHotField(s, opponentLastShot, snow, minutes, cap)
    case CheaterAgent(s) => Cheater.ShootToHotField(s, opponentLastShot, snow, minutes, cap)
    case GrudgerAgent(s) => Grudger.ShootToHotField(s, opponentLastShot, snow, minutes, cap)
    case ModifiedGrudgerAgent(s) => ModifiedGrudger.ShootToHotField(s, opponentLastShot, snow, minutes, cap)
  }

  /** Every agent throws at one target at most per minute. */
  lemma OneTargetPerMinute(p: Player, opponentLastShot: int, snow: int, minutes: int, cap: Cap)
    ensures var r := ShootToOpponentField(p, opponentLastShot, snow, minutes, cap);
      r.amount == 0 || ShootToHotField(r.next, opponentLastShot, snow, minutes, cap) == 0
  {
    match p
    case CooperatorAgent(_) =>
    case CheaterAgent(_) =>
    case GrudgerAgent(s) => Grudger.OneTargetPerMinute(s, opponentLastShot, snow, minutes, cap);
    case ModifiedGrudgerAgent(s) => ModifiedGrudger.OneTargetPerMinute(s, opponentLastShot, snow, minutes, cap);
  }

  const StartSnow := 99
  const Minutes := 60

  /** Everything simulateGame keeps between minutes. */
  datatype Snapshot = Snapshot(
    first: Player, second: Player,
    snowFirst: int, snowSecond: int,
    minutesFirst: int, minutesSecond: int,
    attackFirst: int, attackSecond: int)

  /** The state after a minute, with the two hot-field shots thrown in it. */
  datatype MinuteLog = MinuteLog(next: Snapshot, hotFirst: int, hotSecond: int)

  /** Both players reset, 99 snowballs each, no minutes counted, no attack to report. */
  function Start(first: Player, second: Player): (s: Snapshot)
    ensures s.first.SameKind(first) && s.first.Round() == 0 && !s.first.Betrayed()
    ensures s.second.SameKind(second) && s.second.Round() == 0 && !s.second.Betrayed()
    ensures s.snowFirst == s.snowSecond == StartSnow
    ensures s.minutesFirst == s.minutesSecond == 0
    ensures s.attackFirst == s.attackSecond == 0
  {
    Snapshot(Reset(first), Reset(second), StartSnow, StartSnow, 0, 0, 0, 0)
  }

  /**
   One minute of the match. Each player is told the attack the other made in
   the previous minute, and is asked for its opponent shot, then its hot-field
   shot, both on the snow and minute count it held when the minute began.
   */
  function Minute(s: Snapshot, cap: Cap): (m: MinuteLog)
    ensures var a := ShootToOpponentField(s.first, s.attackSecond, s.snowFirst, s.minutesFirst, cap);
      && m.next.first == a.next && m.next.attackFirst == a.amount
      && m.hotFirst == ShootToHotField(a.next, s.attackSecond, s.snowFirst, s.minutesFirst, cap)
    ensures var a := ShootToOpponentField(s.second, s.attackFirst, s.snowSecond, s.minutesSecond, cap);
      && m.next.second == a.next && m.next.attackSecond == a.amount
      && m.hotSecond == ShootToHotField(a.next, s.attackFirst, s.snowSecond, s.minutesSecond, cap)
    ensures m.next.snowFirst + m.next.snowSecond == s.snowFirst + s.snowSecond + 2 - m.hotFirst - m.hotSecond
    ensures m.next.snowFirst == s.snowFirst + 1 + m.next.attackSecond - m.hotFirst - m.next.attackFirst
    ensures m.next.minutesFirst == if m.next.attackFirst != 0 || m.hotFirst != 0 then 1 else s.minutesFirst + 1
    ensures m.next.minutesSecond == if m.next.attackSecond != 0 || m.hotSecond != 0 then 1 else s.minutesSecond + 1
  {
    var attackFirst := ShootToOpponentField(s.first, s.attackSecond, s.snowFirst, s.minutesFirst, cap);
    var attackSecond := ShootToOpponentField(s.second, s.attackFirst, s.snowSecond, s.minutesSecond, cap);
    var hotFirst := ShootToHotField(attackFirst.next, s.attackSecond, s.snowFirst, s.minutesFirst, cap);
    var hotSecond := ShootToHotField(attackSecond.next, s.attackFirst, s.snowSecond, s.minutesSecond, cap);
    var minutesFirst := if attackFirst.amount != 0 || hotFirst != 0 then 0 else s.minutesFirst;
    var minutesSecond := if attackSecond.amount != 0 || hotSecond != 0 then 0 else s.minutesSecond;
    MinuteLog(
      Snapshot(
        attackFirst.next, attackSecond.next,
        s.snowFirst + 1 + attackSecond.amount - hotFirst - attackFirst.amount,
        s.snowSecond + 1 + attackFirst.amount - hotSecond - attackSecond.amount,
        minutesFirst + 1, minutesSecond + 1,
        attackFirst.amount, attackSecond.amount),
      hotFirst, hotSecond)
  }

  /**
   The match after n minutes. Each minute counter counts the minutes since its
   player last shot, so it lies between 1 and its start value plus n.
   */
  function Play(s: Snapshot, n: nat, cap: Cap): (r: Snapshot)
    ensures n > 0 && s.minutesFirst >= 0 ==> 1 <= r.minutesFirst <= s.minutesFirst + n
    ensures n > 0 && s.minutesSecond >= 0 ==> 1 <= r.minutesSecond <= s.minutesSecond + n
  {
    if n == 0 then s else Minute(Play(s, n - 1, cap), cap).next
  }

  /** The snowballs both players threw into the hot field in the first n minutes. */
  function HotThrown(s: Snapshot, n: nat, cap: Cap): int {
    if n == 0 then 0
    else
      var m := Minute(Play(s, n - 1, cap), cap);
      HotThrown(s, n - 1, cap) + m.hotFirst + m.hotSecond
  }

  /** Attacks only move snowballs between the players: the total grows by 2 a minute, less what goes to the hot field. */
  lemma PlayConservesSnow(s: Snapshot, n: nat, cap: Cap)
    ensures Play(s, n, cap).snowFirst + Play(s, n, cap).snowSecond
         == s.snowFirst + s.snowSecond + 2 * n - HotThrown(s, n, cap)
  {
    var total := (k: nat) => Play(s, k, cap).snowFirst + Play(s, k, cap).snowSecond;
    var hot := (k: nat) => HotThrown(s, k, cap);
    forall k | 0 < k <= n
      ensures total(k) == total(k - 1) + 2 - (hot(k) - hot(k - 1))
    {
      MinuteConservesSnow(s, k, cap);
    }
    GainsAddUp(total, hot, n);
  }

  /** A total that gains 2 per step, less what a second counter gains, after n steps. */
  lemma {:induction false} GainsAddUp(total: nat -> int, hot: nat -> int, n: nat)
    requires forall k | 0 < k <= n :: total(k) == total(k - 1) + 2 - (hot(k) - hot(k - 1))
    ensures total(n) == total(0) + 2 * n - (hot(n) - hot(0))
  {
    if n > 0 {
      GainsAddUp(total, hot, n - 1);
    }
  }

  /** The step of PlayConservesSnow: minute n adds 2 to the total, less its hot shots. */
  lemma MinuteConservesSnow(s: Snapshot, n: nat, cap: Cap)
    requires n > 0
    ensures Play(s, n, cap).snowFirst + Play(s, n, cap).snowSecond
         == Play(s, n - 1, cap).snowFirst + Play(s, n - 1, cap).snowSecond + 2
            - (HotThrown(s, n, cap) - HotThrown(s, n - 1, cap))
  {
    var m := Minute(Play(s, n - 1, cap), cap);
    assert Play(s, n, cap) == m.next;
    assert HotThrown(s, n, cap) == HotThrown(s, n - 1, cap) + m.hotFirst + m.hotSecond;
  }

  /** With a non-negative limit no player runs out: after each minute both hold at least one snowball. */
  lemma MinuteKeepsSnow(s: Snapshot, cap: Cap)
    requires NonNegative(cap)
    requires s.snowFirst >= 0 && s.snowSecond >= 0
    ensures Minute(s, cap).next.snowFirst >= 1 && Minute(s, cap).next.snowSecond >= 1
    ensures Minute(s, cap).hotFirst >= 0 && Minute(s, cap).hotSecond >= 0
  {
    OneTargetPerMinute(s.first, s.attackSecond, s.snowFirst, s.minutesFirst, cap);
    OneTargetPerMinute(s.second, s.attackFirst, s.snowSecond, s.minutesSecond, cap);
  }

  lemma {:induction false} PlayKeepsSnow(s: Snapshot, n: nat, cap: Cap)
    requires NonNegative(cap)
    requires s.snowFirst >= 0 && s.snowSecond >= 0
    ensures Play(s, n, cap).snowFirst >= 0 && Play(s, n, cap).snowSecond >= 0
    ensures n >= 1 ==> Play(s, n, cap).snowFirst >= 1 && Play(s, n, cap).snowSecond >= 1
    ensures HotThrown(s, n, cap) >= 0
  {
    if n > 0 {
      PlayKeepsSnow(s, n - 1, cap);
      MinuteKeepsSnow(Play(s, n - 1, cap), cap);
    }
  }

  /**
   With a non-negative limit, no snow count of a match ever leaves
   [0, 2 * 99 + 2 * 60]: each player keeps a non-negative pile, and the two
   piles together gain at most 2 per minute.
   */
  lemma SnowStaysBounded(first: Player, second: Player, n: nat, cap: Cap)
    requires NonNegative(cap)
    requires n <= Minutes
    ensures 0 <= Play(Start(first, second), n, cap).snowFirst <= 2 * StartSnow + 2 * Minutes
    ensures 0 <= Play(Start(first, second), n, cap).snowSecond <= 2 * StartSnow + 2 * Minutes
  {
    PlayConservesSnow(Start(first, second), n, cap);
    PlayKeepsSnow(Start(first, second), n, cap);
  }

  /** A minute moves both agents on by one round and keeps their kinds. */
  lemma MinuteAdvancesRounds(s: Snapshot, cap: Cap)
    ensures Minute(s, cap).next.first.Round() == s.first.Round() + 1
    ensures Minute(s, cap).next.second.Round() == s.second.Round() + 1
    ensures Minute(s, cap).next.first.SameKind(s.first) && Minute(s, cap).next.second.SameKind(s.second)
  {
  }

  lemma {:induction false} PlayAdvancesRounds(s: Snapshot, n: nat, cap: Cap)
    ensures Play(s, n, cap).first.Round() == s.first.Round() + n
    ensures Play(s, n, cap).second.Round() == s.second.Round() + n
    ensures Play(s, n, cap).first.SameKind(s.first) && Play(s, n, cap).second.SameKind(s.second)
  {
    if n > 0 {
      PlayAdvancesRounds(s, n - 1, cap);
      var before := Play(s, n - 1, cap);
      MinuteAdvancesRounds(before, cap);
      assert Play(s, n, cap) == Minute(before, cap).next;
    }
  }

  /** The agents count the minutes of the match: after n minutes both are at round n. */
  lemma RoundsCountMinutes(first: Player, second: Player, n: nat, cap: Cap)
    ensures Play(Start(first, second), n, cap).first.Round() == n
    ensures Play(Start(first, second), n, cap).second.Round() == n
    ensures Play(Start(first, second), n, cap).first.SameKind(first)
    ensures Play(Start(first, second), n, cap).second.SameKind(second)
  {
    PlayAdvancesRounds(Start(first, second), n, cap);
  }

  /** In the match's last minute the modified Grudger, as first player, attacks and keeps the hot field empty. */
  lemma ModifiedGrudgerTurnsInLastMinute(first: Player, second: Player, cap: Cap)
    requires first.ModifiedGrudgerAgent?
    ensures var s := Play(Start(first, second), Minutes - 1, cap);
      && Minute(s, cap).hotFirst == 0
      && Minute(s, cap).next.attackFirst == Allowance(s.snowFirst, s.minutesFirst, cap)
  {
    RoundsCountMinutes(first, second, Minutes - 1, cap);
    var s := Play(Start(first, second), Minutes - 1, cap);
    ModifiedGrudger.LastMinuteAttacks(s.first.modified, s.attackSecond, s.snowFirst, s.minutesFirst, cap);
  }

  /** The payoffs of a match: the snowballs each player holds at the end. */
  datatype Tuple = Tuple(firstPayoff: int, secondPayoff: int) {
    function Equals(other: Tuple): (r: bool)
      ensures r <==> firstPayoff == other.firstPayoff && secondPayoff == other.secondPayoff
      ensures r <==> this == other
    {
      other.firstPayoff == firstPayoff && other.secondPayoff == secondPayoff
    }
  }

  /**
   The minute loop of simulateGame, run for any number of minutes: the payoffs
   are what the two players hold at the end.
   */
  method PlayMatch(first: Player, second: Player, minutes: nat, cap: Cap) returns (payoffs: Tuple)
    ensures NonNegative(cap) && minutes >= 1 ==>
      && 1 <= payoffs.firstPayoff && 1 <= payoffs.secondPayoff
      && payoffs.firstPayoff + payoffs.secondPayoff <= 2 * StartSnow + 2 * minutes
    ensures payoffs.firstPayoff + payoffs.secondPayoff
         == 2 * StartSnow + 2 * minutes - HotThrown(Start(first, second), minutes, cap)
    ensures payoffs == Tuple(Play(Start(first, second), minutes, cap).snowFirst,
                             Play(Start(first, second), minutes, cap).snowSecond)
  {
    var s := Start(first, second);
    for i := 0 to minutes
      invariant s == Play(Start(first, second), i, cap)
    {
      s := Minute(s, cap).next;
    }
    PlayConservesSnow(Start(first, second), minutes, cap);
    if NonNegative(cap) {
      PlayKeepsSnow(Start(first, second), minutes, cap);
    }
    payoffs := Tuple(s.snowFirst, s.snowSecond);
  }

  /** A 60-minute match between two freshly reset agents. */
  method SimulateGame(first: Player, second: Player, cap: Cap) returns (payoffs: Tuple)
    ensures NonNegative(cap) ==>
      && 1 <= payoffs.firstPayoff && 1 <= payoffs.secondPayoff
      && payoffs.firstPayoff + payoffs.secondPayoff <= 2 * StartSnow + 2 * Minutes
    ensures payoffs.firstPayoff + payoffs.secondPayoff
         == 2 * StartSnow + 2 * Minutes - HotThrown(Start(first, second), Minutes, cap)
    ensures payoffs == Tuple(Play(Start(first, second), Minutes, cap).snowFirst,
                             Play(Start(first, second), Minutes, cap).snowSecond)
  {
    var minutes := Minutes;
    payoffs := PlayMatch(first, second, minutes, cap);
  }

  /**
   How many matches an agent of kind i plays against agents of kind j: one
   per copy of j, except that it does not play itself.
   */
  function OpponentCopies(counts: seq<int>, i: int, j: int): (n: int)
    requires 0 <= i < |counts| && 0 <= j < |counts|
    ensures i != j ==> n == counts[j]
    ensures i == j && counts[j] >= 1 ==> n == counts[j] - 1
    ensures i == j && counts[j] == 0 ==> n == 0
  {
    var plays := counts[j];
    if i == j && plays != 0 then plays - 1 else plays
  }

  /** row[0] * counts[0] + ... + row[k-1] * counts[k-1]. */
  function Weighted(row: seq<int>, counts: seq<int>, k: int): int
    requires 0 <= k <= |row| == |counts|
  {
    if k == 0 then 0 else Weighted(row, counts, k - 1) + row[k - 1] * counts[k - 1]
  }

  /** The payoff agent i collects from kinds 0 .. k-1, row[j] being its payoff against kind j. */
  function ScoreUpTo(row: seq<int>, counts: seq<int>, i: int, k: int): int
    requires 0 <= i < |counts| && 0 <= k <= |row| == |counts|
  {
    if k == 0 then 0 else ScoreUpTo(row, counts, i, k - 1) + row[k - 1] * OpponentCopies(counts, i, k - 1)
  }

  /** finalPayoffs[i] of the tournament; an agent kind with no copies collects nothing. */
  function Score(row: seq<int>, counts: seq<int>, i: int): (score: int)
    requires 0 <= i < |row| == |counts|
    ensures counts[i] <= 0 ==> score == 0
  {
    if counts[i] > 0 then ScoreUpTo(row, counts, i, |counts|) else 0
  }

  lemma {:induction false} ScoreUpToLeavesOutSelf(row: seq<int>, counts: seq<int>, i: int, k: int)
    requires 0 <= i < |counts| && 0 <= k <= |row| == |counts|
    requires counts[i] > 0
    ensures ScoreUpTo(row, counts, i, k) == Weighted(row, counts, k) - (if i < k then row[i] else 0)
  {
    if k > 0 {
      ScoreUpToLeavesOutSelf(row, counts, i, k - 1);
    }
  }

  /**
   Each agent meets every other agent of the tournament exactly once: its score
   is its payoff against every copy of every kind, less one game against itself.
   */
  lemma ScoreMeetsEveryOtherAgentOnce(row: seq<int>, counts: seq<int>, i: int)
    requires 0 <= i < |row| == |counts|
    requires counts[i] > 0
    ensures Score(row, counts, i) == Weighted(row, counts, |counts|) - row[i]
  {
    ScoreUpToLeavesOutSelf(row, counts, i, |counts|);
  }
}

=== FILE: modified_grudger.dfy ===
/**
 The "modified Grudger" snowball agent: it throws into the hot field every
 fourth minute until it is betrayed, then throws at the opponent every fourth
 minute instead. It turns on the opponent in minute 60 in any case, and in
 minute 56 throws at most 7 into the hot field.
 */
module ModifiedGrudger {
  import opened Snowball

  /** The agent's two fields: the minutes played and whether it was betrayed. */
  datatype State = State(round: int, betrayed: bool)

  /** The minute in which the agent turns on the opponent regardless. */
  const LastRound := 60
  /** The minute in which the hot-field shot is capped at HotCapAtRound56. */
  const CappedRound := 56
  const HotCapAtRound56 := 7

  function Reset(s: State): (r: State)
    ensures r.round == 0 && !r.betrayed
  {
    State(0, false)
  }

  /** Called first in every minute; counts the minute and may turn the agent hostile. */
  function ShootToOpponentField(s: State, opponentLastShot: int, snow: int, minutes: int, cap: Cap): (r: Shot<State>)
    ensures r.next.round == s.round + 1
    ensures r.next.betrayed <==> s.betrayed || opponentLastShot != 0 || r.next.round == LastRound
    ensures r.amount != 0 ==> r.next.betrayed && FiringRound(r.next.round)
    ensures r.next.betrayed && FiringRound(r.next.round) ==> r.amount == Allowance(snow, minutes, cap)
    ensures snow >= 0 ==> r.amount <= snow
    ensures snow >= 0 && cap(minutes) >= 0 ==> r.amount >= 0
  {
    var round := s.round + 1;
    var betrayed := s.betrayed || opponentLastShot != 0 || round == LastRound;
    var amount := if betrayed && FiringRound(round) then Allowance(snow, minutes, cap) else 0;
    Shot(State(round, betrayed), amount)
  }

  /** Called second in every minute; reads the state and leaves it unchanged. */
  function ShootToHotField(s: State, opponentLastShot: int, snow: int, minutes: int, cap: Cap): (amount: int)
    ensures amount != 0 ==> !s.betrayed && FiringRound(s.round)
    ensures s.round == CappedRound ==> amount <= HotCapAtRound56
    ensures !s.betrayed && s.round == CappedRound ==>
      && amount <= Allowance(snow, minutes, cap)
      && (amount == HotCapAtRound56 || amount == Allowance(snow, minutes, cap))
    ensures snow >= 0 ==> amount <= snow
    ensures snow >= 0 && cap(minutes) >= 0 ==> amount >= 0
    ensures !s.betrayed && FiringRound(s.round) && s.round != CappedRound ==> amount == Allowance(snow, minutes, cap)
  {
    if !s.betrayed && FiringRound(s.round) then
      var canShoot := Allowance(snow, minutes, cap);
      if s.round == CappedRound then (if HotCapAtRound56 <= canShoot then HotCapAtRound56 else canShoot)
      else canShoot
    else 0
  }

  /** Within one minute (opponent call, then hot-field call) at most one of the two shots is nonzero. */
  lemma OneTargetPerMinute(s: State, opponentLastShot: int, snow: int, minutes: int, cap: Cap)
    ensures var r := ShootToOpponentField(s, opponentLastShot, snow, minutes, cap);
      r.amount == 0 || ShootToHotField(r.next, opponentLastShot, snow, minutes, cap) == 0
  {
  }

  /** In minute 60 the agent shoots at the opponent and nothing into the hot field. */
  lemma LastMinuteAttacks(s: State, opponentLastShot: int, snow: int, minutes: int, cap: Cap)
    requires s.round == LastRound - 1
    ensures var r := ShootToOpponentField(s, opponentLastShot, snow, minutes, cap);
      && r.next.betrayed
      && r.amount == Allowance(snow, minutes, cap)
      && ShootToHotField(r.next, opponentLastShot, snow, minutes, cap) == 0
  {
  }

  /**
   The state after one opponent-field call per minute, fed the given opponent
   shots (the hot-field calls in between change nothing). Once betrayed, the
   agent stays betrayed until a reset, and any nonzero opponent shot betrays it.
   */
  function AfterMinutes(s: State, opponentShots: seq<int>, snow: int, minutes: int, cap: Cap): (r: State)
    decreases |opponentShots|
    ensures r.round == s.round + |opponentShots|
    ensures s.betrayed ==> r.betrayed
    ensures (exists k | 0 <= k < |opponentShots| :: opponentShots[k] != 0) ==> r.betrayed
    ensures r.betrayed <==>
      || s.betrayed
      || (exists k | 0 <= k < |opponentShots| :: opponentShots[k] != 0)
      || s.round < LastRound <= s.round + |opponentShots|
  {
    if |opponentShots| == 0 then s
    else
      var r0 := ShootToOpponentField(s, opponentShots[0], snow, minutes, cap).next;
      var r := AfterMinutes(r0, opponentShots[1..], snow, minutes, cap);
      assert forall k | 1 <= k < |opponentShots| :: opponentShots[k] == opponentShots[1..][k - 1];
      r
  }
}

=== FILE: params.dfy ===
/**
 The four integers that define one addition game: players alternately add a
 move to a shared position, and whoever reaches or passes the final position
 wins. The program fixes them as module constants; here they are a value.
 */
module Params {

  datatype Game = Game(minPosition: int, finalPosition: int, minMove: int, maxMove: int)

  /** The configuration the program plays: 12 + 9 + 2002 to reach, moves 1 .. 21. */
  const Configured: Game := Game(1, 12 + 9 + 2002, 1, 12 + 9)

  /** m is an allowed move. */
  predicate IsMove(g: Game, m: int) {
    g.minMove <= m <= g.maxMove
  }

  /** t can be reached from p with one allowed move. */
  predicate Reaches(g: Game, p: int, t: int) {
    p + g.minMove <= t <= p + g.maxMove
  }

  /** The seed window [final - max, final + max): positions that are fix points from the start. */
  predicate InSeed(g: Game, p: int) {
    g.finalPosition - g.maxMove <= p < g.finalPosition + g.maxMove
  }

  /** The integers of [lo, hi) as a set. */
  function Interval(lo: int, hi: int): (s: set<int>)
    ensures forall x :: x in s <==> lo <= x < hi
    decreases hi - lo
  {
    if hi <= lo then {} else {lo} + Interval(lo + 1, hi)
  }

  function Seed(g: Game): (s: set<int>)
    ensures forall p :: p in s <==> InSeed(g, p)
  {
    Interval(g.finalPosition - g.maxMove, g.finalPosition + g.maxMove)
  }

  /** The positions the lose-point index ranges over: [minPosition, final + max). */
  predicate InDomain(g: Game, p: int) {
    g.minPosition <= p < g.finalPosition + g.maxMove
  }
}

=== FILE: reference_agents.dfy ===
/** The COOPERATOR reference agent: every fourth minute it throws into the hot field, never at the opponent. */
module Cooperator {
  import opened Snowball

  datatype State = State(round: int)

  function Reset(s: State): (r: State)
    ensures r.round == 0
  {
    State(0)
  }

  function ShootToOpponentField(s: State, opponentLastShot: int, snow: int, minutes: int, cap: Cap): (r: Shot<State>)
    ensures r.next.round == s.round + 1
    ensures r.amount == 0
  {
    Shot(State(s.round + 1), 0)
  }

  function ShootToHotField(s: State, opponentLastShot: int, snow: int, minutes: int, cap: Cap): (amount: int)
    ensures amount != 0 ==> FiringRound(s.round)
    ensures FiringRound(s.round) ==> amount == Allowance(snow, minutes, cap)
    ensures snow >= 0 ==> amount <= snow
    ensures snow >= 0 && cap(minutes) >= 0 ==> amount >= 0
  {
    if FiringRound(s.round) then Allowance(snow, minutes, cap) else 0
  }
}

/** The CHEATER reference agent: every fourth minute it throws at the opponent, never into the hot field. */
module Cheater {
  import opened Snowball

  datatype State = State(round: int)

  function Reset(s: State): (r: State)
    ensures r.round == 0
  {
    State(0)
  }

  function ShootToOpponentField(s: State, opponentLastShot: int, snow: int, minutes: int, cap: Cap): (r: Shot<State>)
    ensures r.next.round == s.round + 1
    ensures r.amount != 0 ==> FiringRound(r.next.round)
    ensures FiringRound(r.next.round) ==> r.amount == Allowance(snow, minutes, cap)
    ensures snow >= 0 ==> r.amount <= snow
    ensures snow >= 0 && cap(minutes) >= 0 ==> r.amount >= 0
  {
    var round := s.round + 1;
    Shot(State(round), if FiringRound(round) then Allowance(snow, minutes, cap) else 0)
  }

  function ShootToHotField(s: State, opponentLastShot: int, snow: int, minutes: int, cap: Cap): (amount: int)
    ensures amount == 0
  {
    0
  }
}

/**
 The GRUDGER reference agent: it cooperates (hot field every fourth minute)
 until the opponent hits it once, then attacks every fourth minute for good.
 */
module Grudger {
  import opened Snowball

  datatype State = State(round: int, betrayed: bool)

  function Reset(s: State): (r: State)
    ensures r.round == 0 && !r.betrayed
  {
    State(0, false)
  }

  function ShootToOpponentField(s: State, opponentLastShot: int, snow: int, minutes: int, cap: Cap): (r: Shot<State>)
    ensures r.next.round == s.round + 1
    ensures s.betrayed ==> r.next.betrayed
    ensures r.next.betrayed <==> s.betrayed || opponentLastShot != 0
    ensures r.amount != 0 ==> r.next.betrayed && FiringRound(r.next.round)
    ensures r.next.betrayed && FiringRound(r.next.round) ==> r.amount == Allowance(snow, minutes, cap)
    ensures snow >= 0 ==> r.amount <= snow
    ensures snow >= 0 && cap(minutes) >= 0 ==> r.amount >= 0
  {
    var round := s.round + 1;
    var betrayed := s.betrayed || opponentLastShot != 0;
    Shot(State(round, betrayed), if betrayed && FiringRound(round) then Allowance(snow, minutes, cap) else 0)
  }

  function ShootToHotField(s: State, opponentLastShot: int, snow: int, minutes: int, cap: Cap): (amount: int)
    ensures amount != 0 ==> !s.betrayed && FiringRound(s.round)
    ensures !s.betrayed && FiringRound(s.round) ==> amount == Allowance(snow, minutes, cap)
    ensures snow >= 0 ==> amount <= snow
    ensures snow >= 0 && cap(minutes) >= 0 ==> amount >= 0
  {
    if !s.betrayed && FiringRound(s.round) then Allowance(snow, minutes, cap) else 0
  }

  /** Within one minute (opponent call, then hot-field call) at most one of the two shots is nonzero. */
  lemma OneTargetPerMinute(s: State, opponentLastShot: int, snow: int, minutes: int, cap: Cap)
    ensures var r := ShootToOpponentField(s, opponentLastShot, snow, minutes, cap);
      r.amount == 0 || ShootToHotField(r.next, opponentLastShot, snow, minutes, cap) == 0
  {
  }
}

=== FILE: scenarios.dfy ===
/**
 A worked game small enough to classify by hand: positions from 0, target 10,
 moves 1 .. 3. The search stops after two productive rounds, and the lose
 points are 2 and 6, the positions below the target whose distance to it
 is a multiple of 4.
 */
module Scenarios {
  import opened Params
  import opened FixPointSearch
  import opened LoseIndex
  import opened Strategy

  const Small: Game := Game(0, 10, 1, 3)

  /** The sets the search holds: the seed window, then after each productive round. */
  const Round1: set<int> := {7, 8, 9, 10, 11, 12}
  const Round2: set<int> := {3, 4, 5, 7, 8, 9, 10, 11, 12}
  const Round3: set<int> := {0, 1, 3, 4, 5, 7, 8, 9, 10, 11, 12}

  lemma SeedOfSmall()
    ensures Seed(Small) == Round1
    ensures WellFormed(Small, Round1) && WellFormed(Small, Round2) && WellFormed(Small, Round3)
  {
  }

  lemma Windows()
    ensures WellFormed(Small, Round1) && ScanWindow(Small, Round1) == Window(1, 10)
    ensures WellFormed(Small, Round2) && ScanWindow(Small, Round2) == Window(0, 9)
    ensures WellFormed(Small, Round3) && ScanWindow(Small, Round3) == Window(0, 6)
  {
    SeedOfSmall();
    assert Representative(Small, Round1) == 7;
    assert Representative(Small, Round2) == 3;
    assert Representative(Small, Round3) == 0;
  }

  /** The first round's set on a game with moves 1 .. 3: of [1, 13) it holds exactly 7 .. 12. */
  ghost predicate FirstShape(g: Game, w: set<int>) {
    && g.minMove == 1 && g.maxMove == 3
    && forall x | 1 <= x < 13 :: x in w <==> 7 <= x
  }

  /** A new position of [1, 10) with a move onto a trap of the first round moves onto 6, so it is 3, 4 or 5. */
  lemma FirstMover(g: Game, w: set<int>, p: int, t: int)
    requires FirstShape(g, w)
    requires 1 <= p < 10 && p !in w
    requires p + 1 <= t <= p + 3 && Trap(g, w, t)
    ensures p in {3, 4, 5}
  {
    assert t !in w && t + 1 in w;
  }

  /** In the first round 6 is a trap, and 3, 4 and 5 qualify by moving onto it. */
  lemma SixIsTrap(g: Game, w: set<int>)
    requires FirstShape(g, w)
    ensures Trap(g, w, 6)
    ensures Qualifies(g, w, 3) && Qualifies(g, w, 4) && Qualifies(g, w, 5)
  {
    assert 6 !in w && 7 in w && 8 in w && 9 in w;
    assert Trap(g, w, 6);
    assert 3 !in w && 4 !in w && 5 !in w;
  }

  /**
   The first round, scanning [1, 10) on any such set: only 6 is a trap, so
   exactly 3, 4 and 5 are added.
   */
  lemma FirstRoundOf(g: Game, w: set<int>)
    requires FirstShape(g, w)
    ensures Additions(g, w, Window(1, 10)) == {3, 4, 5}
  {
    var added := Additions(g, w, Window(1, 10));
    forall p | p in added
      ensures p in {3, 4, 5}
    {
      var t :| p + 1 <= t <= p + 3 && Trap(g, w, t);
      FirstMover(g, w, p, t);
    }
    SixIsTrap(g, w);
    assert 3 in added && 4 in added && 5 in added;
  }

  /** The second round's set on a game with moves 1 .. 3: of [0, 13) it holds exactly 3, 4, 5 and 7 .. 12. */
  ghost predicate SecondShape(g: Game, w: set<int>) {
    && g.minMove == 1 && g.maxMove == 3
    && forall x | 0 <= x < 13 :: x in w <==> 3 <= x && x != 6
  }

  /** A new position of [0, 9) with a move onto a trap of the second round is 0 or 1: 2 and 6 have no trap in reach. */
  lemma SecondMover(g: Game, w: set<int>, p: int, t: int)
    requires SecondShape(g, w)
    requires 0 <= p < 9 && p !in w
    requires p + 1 <= t <= p + 3 && Trap(g, w, t)
    ensures p in {0, 1}
  {
    assert t !in w && t + 1 in w && t + 2 in w && t + 3 in w;
  }

  /** In the second round 2 is a trap, and 0 and 1 qualify by moving onto it. */
  lemma TwoIsTrap(g: Game, w: set<int>)
    requires SecondShape(g, w)
    ensures Trap(g, w, 2)
    ensures Qualifies(g, w, 0) && Qualifies(g, w, 1)
  {
    assert 2 !in w && 3 in w && 4 in w && 5 in w;
    assert 0 !in w && 1 !in w;
  }

  /**
   The second round, scanning [0, 9) on any such set: 2 is now a trap too, and
   exactly 0 and 1 are added.
   */
  lemma SecondRoundOf(g: Game, w: set<int>)
    requires SecondShape(g, w)
    ensures Additions(g, w, Window(0, 9)) == {0, 1}
  {
    var added := Additions(g, w, Window(0, 9));
    forall p | p in added
      ensures p in {0, 1}
    {
      var t :| p + 1 <= t <= p + 3 && Trap(g, w, t);
      SecondMover(g, w, p, t);
    }
    TwoIsTrap(g, w);
    assert 0 in added && 1 in added;
  }

  /**
   The third round, scanning [0, 6) on a set holding all of [0, 13) but 2 and 6:
   the only candidate, 2, has every move onto a fix point.
   */
  lemma ThirdRoundOf(g: Game, w: set<int>)
    requires g.minMove == 1 && g.maxMove == 3
    requires forall x | 0 <= x < 13 :: x in w <==> x != 2 && x != 6
    ensures Additions(g, w, Window(0, 6)) == {}
  {
  }

  /** The three sets, described by the gaps they leave in [0, 13). */
  lemma Members()
    ensures forall x | 1 <= x < 13 :: x in Round1 <==> 7 <= x
    ensures forall x | 0 <= x < 13 :: x in Round2 <==> 3 <= x && x != 6
    ensures forall x | 0 <= x < 13 :: x in Round3 <==> x != 2 && x != 6
  {
  }

  /** Round 1 scans [1, 10) around 7 and adds 3, 4 and 5, which all reach the trap 6. */
  lemma FirstRound()
    ensures Round(Small, Round1) == {3, 4, 5}
  {
    Windows();
    Members();
    FirstRoundOf(Small, Round1);
  }

  /** Round 2 scans [0, 9) around 3 and adds 0 and 1, which reach the trap 2. */
  lemma SecondRound()
    ensures Round(Small, Round2) == {0, 1}
  {
    Windows();
    Members();
    SecondRoundOf(Small, Round2);
  }

  /** Round 3 scans [0, 6) around 0 and adds nothing: the search stops. */
  lemma ThirdRound()
    ensures Round(Small, Round3) == {}
  {
    Windows();
    Members();
    ThirdRoundOf(Small, Round3);
  }

  /** 0 and 1 reach the trap 2; 3, 4 and 5 still reach the trap 6. */
  lemma JustifiedRound3()
    ensures Justified(Small, Round3)
  {
    assert Trap(Small, Round3, 2) && Trap(Small, Round3, 6);
    forall p | p in Round3 && !InSeed(Small, p)
      ensures exists t :: Reaches(Small, p, t) && Trap(Small, Round3, t)
    {
      if p <= 1 {
        assert Reaches(Small, p, 2);
      } else {
        assert Reaches(Small, p, 6);
      }
    }
  }

  lemma HistoryAt(g: Game, rounds: seq<set<int>>, k: int)
    requires History(g, rounds)
    requires 1 <= k < |rounds| - 1
    ensures WellFormed(g, rounds[k]) && Round(g, rounds[k]) != {} && rounds[k + 1] == rounds[k] + Round(g, rounds[k])
  {
    assert Step(g, rounds[k], rounds[k + 1]);
  }

  lemma SecondEntry(rounds: seq<set<int>>)
    requires History(Small, rounds) && |rounds| >= 3
    ensures rounds[2] == Round2
  {
    SeedOfSmall();
    FirstRound();
    HistoryAt(Small, rounds, 1);
  }

  lemma ThirdEntry(rounds: seq<set<int>>)
    requires History(Small, rounds) && |rounds| >= 4
    ensures rounds[3] == Round3
  {
    SecondEntry(rounds);
    SecondRound();
    HistoryAt(Small, rounds, 2);
  }

  lemma PastFirstRound(rounds: seq<set<int>>)
    requires History(Small, rounds)
    requires Round(Small, rounds[|rounds| - 1]) == {}
    ensures |rounds| >= 3
  {
    SeedOfSmall();
    FirstRound();
  }

  lemma PastSecondRound(rounds: seq<set<int>>)
    requires History(Small, rounds) && |rounds| >= 3
    requires Round(Small, rounds[|rounds| - 1]) == {}
    ensures |rounds| >= 4
  {
    SecondEntry(rounds);
    SecondRound();
  }

  lemma StopsAfterThirdRound(rounds: seq<set<int>>)
    requires History(Small, rounds) && |rounds| >= 4
    ensures |rounds| == 4
  {
    ThirdEntry(rounds);
    ThirdRound();
    if |rounds| > 4 {
      HistoryAt(Small, rounds, 3);
    }
  }

  /** Whatever history the search runs through on this game, it ends in Round3. */
  lemma SmallGameFixPoints(rounds: seq<set<int>>)
    requires History(Small, rounds)
    requires Round(Small, rounds[|rounds| - 1]) == {}
    ensures |rounds| == 4
    ensures rounds[|rounds| - 1] == Round3
  {
    PastFirstRound(rounds);
    PastSecondRound(rounds);
    StopsAfterThirdRound(rounds);
    ThirdEntry(rounds);
  }

  /** The lose points of the small game are exactly 2 and 6. */
  lemma SmallGameLosePoints()
    ensures forall x :: x in LosePoints(Small, Round3) <==> x == 2 || x == 6
  {
  }

  /** The strategies on the small game, read off its classification. */
  lemma SmallGameMoves(draw: int)
    requires IsMove(Small, draw)
    ensures Valid(Classifier(Small, Round3, LosePoints(Small, Round3)))
    ensures SmartMove(Classifier(Small, Round3, LosePoints(Small, Round3)), 5, draw) == 1
    ensures AdviceMove(Classifier(Small, Round3, LosePoints(Small, Round3)), 6) == NoWinningStrategy
    ensures AdviceMove(Classifier(Small, Round3, LosePoints(Small, Round3)), 8) == MakeMove(2)
    ensures AdviceMove(Classifier(Small, Round3, LosePoints(Small, Round3)), 9) == MakeMove(1)
  {
    SeedOfSmall();
    JustifiedRound3();
    SmallGameLosePoints();
    var c := Classifier(Small, Round3, LosePoints(Small, Round3));
    assert 6 in c.lose;
  }

  /**
   What the program's own classification of the small game yields: the search
   result is Round3, the lose points are 2 and 6, and the strategies behave as
   SmallGameMoves describes.
   */
  method ClassifySmallGame() returns (c: Classifier)
    ensures c.game == Small && Valid(c)
    ensures c.fix == Round3
    ensures forall x :: x in c.lose <==> x == 2 || x == 6
    ensures forall draw | IsMove(Small, draw) :: SmartMove(c, 5, draw) == 1
    ensures AdviceMove(c, 6) == NoWinningStrategy
    ensures AdviceMove(c, 8) == MakeMove(2)
    ensures AdviceMove(c, 9) == MakeMove(1)
  {
    var r := BuildClassifier(Small);
    ghost var rounds :| History(Small, rounds) && r.value.fix == rounds[|rounds| - 1];
    SmallGameFixPoints(rounds);
    c := r.value;
    SmallGameLosePoints();
    forall draw | IsMove(Small, draw)
      ensures SmartMove(c, 5, draw) == 1
    {
      SmallGameMoves(draw);
    }
    SmallGameMoves(1);
  }
}

=== FILE: snowball.dfy ===
/**
 What the snowball game's Player interface gives every agent: the per-minute
 shooting limit, which is not part of this model and so is a parameter, and
 the result of one shooting call.
 */
module Snowball {

  /** maxSnowballsPerMinute(minutesPassedAfterYourShot) of the Player interface. */
  type Cap = int -> int

  /** An agent's state after a call, and the number of snowballs it shot. */
  datatype Shot<S> = Shot(next: S, amount: int)

  /** The most an agent may shoot: Math.min(snowballNumber, maxSnowballsPerMinute(minutes)). */
  function Allowance(snow: int, minutes: int, cap: Cap): (a: int)
    ensures a <= snow && a <= cap(minutes)
    ensures a == snow || a == cap(minutes)
  {
    if snow <= cap(minutes) then snow else cap(minutes)
  }

  /** Every minute count is allowed at least zero snowballs. */
  ghost predicate NonNegative(cap: Cap) {
    forall minutes :: cap(minutes) >= 0
  }

  /** A round number at which the agents fire: every fourth minute. */
  predicate FiringRound(round: int) {
    round % 4 == 0
  }
}

=== FILE: strategy.dfy ===
/**
 The strategy engine: the computer's random and smart moves and the advice
 offered to the human player, all read off one classification of the game.
 */
module Strategy {
  import opened Params
  import opened Wrappers
  import opened FixPointSearch
  import opened LoseIndex

  /** The fix points and the lose-point index of one game, computed once and then only read. */
  datatype Classifier = Classifier(game: Game, fix: set<int>, lose: seq<int>)

  /** What the strategies rely on: a justified fix-point set and its exact lose-point index. */
  ghost predicate Valid(c: Classifier) {
    && WellFormed(c.game, c.fix)
    && Justified(c.game, c.fix)
    && c.lose == LosePoints(c.game, c.fix)
  }

  /**
   Classifies a game. A game whose largest move is below 1 has an empty seed
   window, on which the search has no representative to start from.
   */
  method BuildClassifier(g: Game) returns (r: Option<Classifier>)
    ensures r.None? <==> g.maxMove < 1
    ensures r.Some? ==> r.value.game == g && Valid(r.value)
    ensures r.Some? ==> forall p :: InWindow(ScanWindow(g, r.value.fix), p) ==> !Qualifies(g, r.value.fix, p)
    ensures r.Some? ==> Round(g, r.value.fix) == {}
    ensures r.Some? ==> exists rounds :: History(g, rounds) && r.value.fix == rounds[|rounds| - 1]
  {
    if g.maxMove < 1 {
      return None;
    }
    var fix, rounds := ComputeFixPoints(g);
    return Some(Classifier(g, fix, LosePoints(g, fix)));
  }

  /**
   The classification of the configured game: it always succeeds, and there
   every smart move short of the target is an allowed move.
   */
  method ConfiguredClassifier() returns (c: Classifier)
    ensures c.game == Configured && Valid(c)
    ensures exists rounds :: History(Configured, rounds) && c.fix == rounds[|rounds| - 1]
    ensures Round(Configured, c.fix) == {}
    ensures forall position, draw | position < c.game.finalPosition && IsMove(c.game, draw) ::
      IsMove(c.game, SmartMove(c, position, draw))
  {
    var r := BuildClassifier(Configured);
    c := r.value;
  }

  /** Lose points are never fix points and all lie below the seed window. */
  lemma LosePointsBelowSeed(c: Classifier)
    requires Valid(c)
    ensures forall x | x in c.lose ::
      x !in c.fix && c.game.minPosition <= x < c.game.finalPosition - c.game.maxMove
  {
    forall x | x in c.lose
      ensures x !in c.fix && c.game.minPosition <= x < c.game.finalPosition - c.game.maxMove
    {
      assert InSeed(c.game, x) ==> x in Seed(c.game);
    }
  }

  /**
   From a fix point short of the seed window there is a move onto a lose point
   from which every move lands back on a fix point.
   */
  lemma FixPointForcesWin(c: Classifier, p: int)
    requires Valid(c)
    requires p in c.fix && c.game.finalPosition - p > c.game.maxMove
    ensures exists t ::
      && Reaches(c.game, p, t) && p < t && t in c.lose
      && (forall s | Reaches(c.game, t, s) :: s in c.fix)
  {
    var g := c.game;
    assert !InSeed(g, p);
    var t :| Reaches(g, p, t) && Trap(g, c.fix, t);
    assert p < t;
    assert InDomain(g, t);
    assert t in c.lose;
  }

  /** From such a fix point the lookup finds a lose point at most one move away. */
  lemma NearestTargetInReach(c: Classifier, p: int)
    requires Valid(c)
    requires p in c.fix && c.game.finalPosition - p > c.game.maxMove
    ensures NearestLosePoint(c.lose, p).Some?
    ensures p < NearestLosePoint(c.lose, p).value <= p + c.game.maxMove
    ensures NearestLosePoint(c.lose, p).value in c.lose
    ensures forall x | x in c.lose && x > p :: NearestLosePoint(c.lose, p).value <= x
  {
    FixPointForcesWin(c, p);
    var t :| Reaches(c.game, p, t) && p < t && t in c.lose;
    var k :| 0 <= k < |c.lose| && c.lose[k] == t;
  }

  /**
   The move from a fix point short of the seed window onto the nearest lose
   point above it: an allowed-size step onto a lose point, skipping none.
   */
  function WinningMove(c: Classifier, position: int): (m: int)
    requires Valid(c)
    requires position in c.fix && c.game.finalPosition - position > c.game.maxMove
    ensures 1 <= m <= c.game.maxMove
    ensures position + m in c.lose
    ensures forall x | x in c.lose && x > position :: position + m <= x
  {
    NearestTargetInReach(c, position);
    var target := NearestLosePoint(c.lose, position).value;
    assert position + (target - position) == target;
    target - position
  }

  /** The random computer move: `draw` is whatever the random source picked in [minMove, maxMove]. */
  function RandomMove(g: Game, draw: int): (m: int)
    requires IsMove(g, draw)
    ensures IsMove(g, m)
  {
    draw
  }

  /**
   The smart computer move: win at once when the target is in reach, else move
   from a fix point onto the nearest lose point above it, else move at random.
   */
  function SmartMove(c: Classifier, position: int, draw: int): (m: int)
    requires Valid(c)
    requires IsMove(c.game, draw)
    ensures c.game.finalPosition - position <= c.game.maxMove ==> position + m == c.game.finalPosition
    ensures c.game.finalPosition - position > c.game.maxMove && position in c.fix ==>
      m == WinningMove(c, position)
    ensures c.game.finalPosition - position > c.game.maxMove && position !in c.fix ==> IsMove(c.game, m)
    ensures c.game.minMove == 1 && position < c.game.finalPosition ==> IsMove(c.game, m)
  {
    var g := c.game;
    if g.finalPosition - position <= g.maxMove then
      g.finalPosition - position
    else if position in c.fix then
      WinningMove(c, position)
    else
      RandomMove(g, draw)
  }

  /**
   From a fix point short of the seed window, the smart move steps onto the
   nearest lose point above the position, at most maxMove away.
   */
  lemma SmartMoveFromFixPoint(c: Classifier, position: int, draw: int)
    requires Valid(c)
    requires IsMove(c.game, draw)
    requires position in c.fix && c.game.finalPosition - position > c.game.maxMove
    ensures 1 <= SmartMove(c, position, draw) <= c.game.maxMove
    ensures position + SmartMove(c, position, draw) in c.lose
    ensures forall x | x in c.lose && x > position :: position + SmartMove(c, position, draw) <= x
  {
  }

  /** What the advisor tells the player. */
  datatype Advice =
    | NoWinningStrategy
    | MakeMove(move: int)
      /** the lookup found no lose point above the position (the program would fail here) */
    | NoTarget

  /**
   The advisor: nothing to advise on a lose point, otherwise the winning move
   the smart strategy would make.
   */
  function AdviceMove(c: Classifier, position: int): (a: Advice)
    requires Valid(c)
    ensures a.NoWinningStrategy? <==> position in c.lose
    ensures position >= c.game.minPosition ==> !a.NoTarget?
    ensures a.MakeMove? && c.game.minPosition <= position < c.game.finalPosition ==>
      && 1 <= a.move <= c.game.maxMove
      && (position + a.move == c.game.finalPosition || position + a.move in c.lose)
  {
    if position in c.lose then
      NoWinningStrategy
    else if c.game.finalPosition - position <= c.game.maxMove then
      MakeMove(c.game.finalPosition - position)
    else
      match NearestLosePoint(c.lose, position)
      case Some(target) => MakeMove(target - position)
      case None => NoTarget
  }

  /** Off the lose points the advisor proposes exactly the smart move. */
  lemma AdviceAgreesWithSmartMove(c: Classifier, position: int, draw: int)
    requires Valid(c)
    requires IsMove(c.game, draw)
    requires position >= c.game.minPosition && position !in c.lose
    ensures AdviceMove(c, position) == MakeMove(SmartMove(c, position, draw))
  {
    if c.game.finalPosition - position > c.game.maxMove {
      assert InDomain(c.game, position);
      assert position in c.fix;
    }
  }
}

=== FILE: wrappers.dfy ===
/** An optional value: the model's stand-in for a Python result that may be `None`. */
module Wrappers {

  datatype Option<+T> = None | Some(value: T)
}
